=== FILE: README.md ===
# DarkWebFHE dashboard: key-index sync over a key-value contract

This project is a Dafny model of the bookkeeping inside the DarkWebFHE
dashboard (`frontend/web/src/App.tsx`). The dashboard keeps "market data"
records as JSON blobs in one generic key-value contract:

- every record lives under `market_<id>`;
- an index blob under `market_keys` lists the record ids, which makes the
  flat store enumerable.

The model covers these operations:

- **Loading** (`loadMarketData`): rebuild the whole client snapshot from the
  index. Blobs that are empty, unparsable or unreadable are skipped one by
  one. Missing `status` and `riskLevel` get defaults. The rows are sorted
  newest first.
- **Creation** (`submitData`): write the record blob, then re-read the index,
  append the new id and write the index back.
- **Status changes** (`analyzeData`, `flagData`): one read-modify-write of a
  single record blob that replaces its `status` and nothing else.
- **Derived views**: the owner check, the action buttons it gates, the
  search/category filter, the three status counters and the risk histogram.

How the contract is represented:

- The contract is a `Store`: the index blob plus a map from record id to
  record blob.
- A blob is `Empty`, `Malformed` (JSON parsing throws), `Unreadable` (the
  `getData` call throws) or `Item(payload)`.
- Every mutating operation is a pure function. It returns how the operation
  ended and the list of writes whose `setData` call resolved, in issue
  order. The contract afterwards is `Apply(store, writes)`, so the order of
  the two creation writes can be read directly from the log.
- Time, randomness and transaction outcomes are parameters: the id,
  `Date.now()`, the risk level (1..10), and whether each awaited `setData`
  call resolved, was declined by the signer, or threw.
- The wallet is a `Session`: whether a provider is connected, plus the
  account it reported.

Modules: `Blobs` (blob and option types), `Seqs` (filter, subsequence),
`Text` (ASCII lower-casing, substring), `Market` (data model), `Sorting`,
`Loading` and `LoadingFacts`, `Writes` (write log), `Creation`, `Mutation`,
`Views`, and `Protocol` (how the operations compose).

Behaviour of the code worth noting:

- When the contract is missing or unavailable, the code keeps the previous
  snapshot. It does not clear it.
- A record blob that exists but does not parse makes analyze/flag fail. The
  failure is distinct from "Data not found".
- Categories are free strings in the code. The closed list exists only in
  the form.
- Without a wallet provider, the mutating operations only raise an alert. No
  error state is reported.
- Creation encodes the form text with `btoa` before anything else. `btoa`
  throws on a character beyond U+00FF, so such a draft fails with nothing
  written.

## Model

| member | source | states |
|---|---|---|
| Loading.IndexKeys | frontend/web/src/App.tsx:128-137 | An empty or malformed index blob reads as an empty list, a parsed index as its ids; only a throwing read yields nothing |
| Loading.Collect | frontend/web/src/App.tsx:139-163 | The ids of the collected rows are exactly the index keys whose blob is present and decodes, in index order, so the list is never longer than the index |
| Loading.CollectRows | frontend/web/src/App.tsx:141-155 | Every collected row comes from one index key with a decodable blob; its id is that key and its fields are the blob's, with the status and risk defaults applied |
| Market.DisplayStatus | frontend/web/src/App.tsx:153 | A missing or empty status is shown as "pending"; any other stored status is shown unchanged |
| Market.Entry | frontend/web/src/App.tsx:147-155 | A row takes its id from the index key and its fields from the blob; a missing riskLevel becomes 0 |
| Sorting.SortNewestFirst | frontend/web/src/App.tsx:165 | The sorted list is a permutation of its input with timestamps non-increasing |
| Loading.Load | frontend/web/src/App.tsx:115-173 | With no contract, an unavailable contract or a throwing index read, the snapshot is kept. With an empty or malformed index it becomes empty. Otherwise it becomes a newest-first permutation of the collected rows |
| LoadingFacts.SortKeepsIds | frontend/web/src/App.tsx:165 | Sorting keeps the multiset of row ids |
| LoadingFacts.LoadedIdsAreLiveKeys | frontend/web/src/App.tsx:139-166 | After a load, each index entry with a decodable blob has exactly one row (once per listing) and no other key has any |
| LoadingFacts.EmptyBlobIsSkipped | frontend/web/src/App.tsx:141-159 | For index ["a1","a2"] where the blob of "a2" is empty, the snapshot is the row of "a1" alone |
| Market.RecordKeyInjective | frontend/web/src/App.tsx:143 | Distinct record ids give distinct `market_<id>` keys, so records can be keyed by id |
| Market.RecordKeyIsIndexKey | frontend/web/src/App.tsx:128-143 | The record key of an id equals the index key `market_keys` exactly when the id is "keys": the one place where the two kinds of key collide |
| Creation.Submit | frontend/web/src/App.tsx:175-269 | Without a provider nothing is written. Form text with a character beyond Latin-1 fails before any write, and so does a missing signer. At most two writes are made, the record first and then the index. The record is pending, owned by the account, in the submitted category, with risk 1..10. Success holds exactly when the text is encodable and both `setData` calls resolve. A declined signature on either call reports "rejected"; any other failing call reports a write failure; a throwing index read reports a read failure |
| Creation.EuroSignStopsCreation | frontend/web/src/App.tsx:188-191 | A description holding "€" makes the creation fail with nothing written, whatever the signer and the calls would do |
| Creation.SubmitEffect | frontend/web/src/App.tsx:209-230 | On success the index is the old index with the id appended, or [id] if the old index was empty or malformed. When the record call resolved but the index read or write then fails, the record is stored and the index is unchanged, so no entry names it. No other record changes |
| Mutation.SetStatus | frontend/web/src/App.tsx:271-399 | Without a provider nothing happens. A missing signer, an empty blob ("not found"), a malformed blob and a throwing read each fail with no write. A failing transaction, declined or not, reports a write failure. The only write rewrites the record with the action's status and all other fields the same |
| Mutation.SetStatusEffect | frontend/web/src/App.tsx:292-307 | After a status change the index and every other record are unchanged; the record keeps its fields and gets the new status |
| Mutation.Target | frontend/web/src/App.tsx:299-367 | Analyze writes exactly "analyzed" and flag exactly "flagged"; neither writes "pending" or the empty string |
| Mutation.AnalyzeThenFlag | frontend/web/src/App.tsx:271-399 | Analyzing a record and then flagging it shows it as analyzed in between and flagged at the end, with its other fields and the index unchanged |
| Protocol.Refresh | frontend/web/src/App.tsx:241 | The snapshot is reloaded only after a successful operation and is kept after a failure |
| Protocol.MissingRecordChangesNothing | frontend/web/src/App.tsx:292-295 | A status change on an id with no record reports not found and leaves the contract, the index and the snapshot unchanged |
| Protocol.SubmitThenLoad | frontend/web/src/App.tsx:188-241 | With both calls resolving, creation succeeds exactly when the form text is encodable. Then reloading with a fresh id shows the old rows plus exactly one new row, which is pending, owned by the account, in the submitted category, with risk 1..10. Otherwise the snapshot stays |
| Protocol.StepKeepsAdvanced | frontend/web/src/App.tsx:364-367 | No single creation (with a fresh id) or status change turns an analyzed or flagged record back to pending |
| Protocol.NeverBackToPending | frontend/web/src/App.tsx:199-206 | Along any sequence of operations whose creations use fresh ids, a record that has left pending never returns to it |
| Protocol.OfferedActionsFollowStateMachine | frontend/web/src/App.tsx:616-631 | For a snapshot row that still shows what its record holds, an offered action that succeeds moves pending to analyzed or anything to flagged, and a flagged row offers only Flag |
| Protocol.StaleSnapshotUnflags | frontend/web/src/App.tsx:292-318 | Analyze does not re-check the stored status: after a resolved flag whose reload gets no usable read-only contract, the snapshot still offers Analyze on the row, and analyzing turns the flagged record into an analyzed one, a transition the state machine forbids |
| Views.IsOwnerIsCaseInsensitiveEquality | frontend/web/src/App.tsx:401-403 | The owner check is symmetric and reflexive, and holds exactly when the two addresses agree letter by letter up to case |
| Text.LowerEqIffSameUpToCase | frontend/web/src/App.tsx:402 | Comparing lower-cased strings is the same as comparing them character by character up to case |
| Views.Offered | frontend/web/src/App.tsx:616-631 | Analyze is offered exactly to the owner of a pending row; Flag exactly to the owner, whatever the status |
| Views.FilteredData | frontend/web/src/App.tsx:58-63 | The filtered list is an order-preserving subsequence of the snapshot. A row is kept, as often as it occurs, exactly when it passes both the search test and the category test |
| Text.ContainsIffOccurs | frontend/web/src/App.tsx:59-60 | The substring test used by search holds exactly when the query occurs at some position of the text |
| Views.FilterDefaultsShowAll | frontend/web/src/App.tsx:44-45 | With the initial empty query and the "all" category, the filtered list is the whole snapshot |
| Views.StatusCountsPartition | frontend/web/src/App.tsx:50-52 | The three status counters never exceed the snapshot size; they add up to it exactly when every status is pending, analyzed or flagged |
| Views.RiskChart | frontend/web/src/App.tsx:405-412 | Ten buckets; bucket level-1 counts the rows of that risk level; the buckets add up to the rows with risk in 1..10, so out-of-range levels are ignored |
| Views.TalliesStep | frontend/web/src/App.tsx:408-411 | Counting one more row bumps exactly its level's bucket when the level is in 1..10 and changes nothing otherwise |

## Left out

- React rendering, the modals, the team and footer content, the user-action history strings and date formatting carry no behaviour and are not modelled.
- Wallet and contract acquisition (`ethers.BrowserProvider`, `getContractReadOnly`, `getContractWithSigner`, the `accountsChanged` listener) are foreign calls. Their results are parameters: `Session`, `hasSigner`, and the optional read-only `Gateway`. `frontend/web/src/contract` is not part of this model.
- JSON parsing, UTF-8 conversion and the `FHE-` + `btoa` payload encoding are library calls. Decoding is the abstract `Blob` variants and the encoded payload is a parameter. Nothing decodes the payload, so there is no round trip to state.
- Views.RiskChart: stored numbers are taken as integers. JSON numbers are doubles, and a fractional level in 1..10 (say 2.5) passes the range test at `frontend/web/src/App.tsx:409` but increments a stray property instead of a bucket, so in the source the bars need not add up to the in-range rows.
- Views.TalliesStep: levels are integers, so every in-range level bumps exactly one bucket. A fractional level in 1..10 bumps none in the source.
- Protocol.OfferedActionsFollowStateMachine: assumes the snapshot row matches the stored record. The snapshot goes stale when a successful operation's reload gets no usable read-only contract or its index read throws, or when another session changes the record; then the buttons can break the state machine (Protocol.StaleSnapshotUnflags).
- JSON of the wrong shape is not modelled: an index that parses to a non-array, or a record that parses to a non-object or lacks `data`, `timestamp`, `owner` or `category`. Decoding is all-or-nothing. Stored `timestamp` and `riskLevel` are taken as integers; fractional values are not modelled.
- `Date.now()` and `Math.random()` are parameters. The source calls `Date.now()` twice (once for the id, once for the timestamp), so the id is taken as an independent parameter.
- The transaction banner and its `setTimeout` dismissal (2 s / 3 s), the 3 s simulated-processing delay, the `isRefreshing`/`loading`/`creating` flags and the exact banner and alert texts are timing or presentation. The model keeps only how each operation ends (`Outcome`).
- Concurrent interleavings are not modelled. Two overlapping creations race on the index and the last write wins. Each operation is modelled as atomic and sequential.
- The average risk uses floating-point division and `toFixed`.
- The creation dialog's required-field check (`frontend/web/src/App.tsx:746-753`) is caller-side validation before `submitData` and is not modelled.
- Contract key aliasing is not modelled. Records are kept apart from the index, but in the contract an index entry `"keys"` would name `market_keys`, the index itself (Market.RecordKeyIsIndexKey states when this happens).
- Protocol.NeverBackToPending: new ids are assumed never to collide with an existing record. The source builds them from `Date.now()` and 7 random base-36 characters and then overwrites `market_<id>` unconditionally, so a collision would reset an analyzed or flagged record to pending.
- Protocol.SubmitThenLoad: the source awaits only the `setData` promise and never a receipt, so a resolved call means the transaction was sent, not applied. The model takes every resolved call as applied before the next read, and a transaction that reverts later is still reported as success, as in the source. The "exactly one new row" depends on this, and so does Protocol.Refresh.
- Protocol.Refresh: read failures belong to a key (`Unreadable` in the store), not to one call. A `getData` that throws only during the reload, which the source skips, cannot be expressed.
- Sorting.SortNewestFirst: does not state stability. JavaScript's sort is stable, and the model's insertion sort is too, but only order and permutation are proved.
- Views.IsOwnerIsCaseInsensitiveEquality: lower-casing covers the ASCII letters only. JavaScript's `toLowerCase` also folds non-ASCII letters. Addresses are hexadecimal, so the difference does not arise for them.
- Views.FilteredData: the search lower-cases the query, the category and the owner with ASCII-only folding. The query is free user text and categories are free strings, so this can differ from JavaScript's `toLowerCase` there. For example, "É" and "é" do not match each other in the model but do in the source.

=== FILE: blobs.dfy ===
/** Values read back from the generic key-value contract.

    The contract stores opaque bytes. The dashboard only ever cares whether
    a read gave nothing, gave bytes that do not parse, failed outright, or
    gave a well-formed payload, so that is all a blob is here.
 */
module Blobs {

  datatype Option<+T> = None | Some(value: T) {

    /** The payload, or `default` when absent (JavaScript's `x || default`
        for values that are never falsy when present). */
    function GetOr(default: T): T {
      match this
      case Some(v) => v
      case None => default
    }
  }

  /** What `getData(key)` yields once the caller has tried to decode it.
      - Empty:      zero-length bytes (also what an unset key returns);
      - Malformed:  bytes on which JSON parsing throws;
      - Unreadable: the gateway call itself throws;
      - Item:       a decoded payload. */
  datatype Blob<+T> = Empty | Malformed | Unreadable | Item(payload: T)

  /** How one awaited `setData` call ends: its promise resolved (the
      transaction was sent; no receipt is awaited), it was declined by the
      signer ("user rejected transaction"), or it threw for another
      reason. */
  datatype WriteOutcome = Resolved | UserRejected | CallFailed
}

=== FILE: creation.dfy ===
/** `submitData`: write a new record blob, then append its id to the index. */
module Creation {
  import opened Blobs
  import opened Market
  import opened Loading
  import opened Writes
  import opened Text

  /** The form fields of the creation dialog. */
  datatype Draft = Draft(category: string, description: string, content: string)

  /** The record a creation writes: pending, owned by the submitting
      account, in the submitted category, with a risk level in 1..10 and
      the creation second as timestamp. */
  predicate IsNewRecord(item: StoredItem, account: string, draft: Draft, encrypted: string, nowMs: nat) {
    && item.data == encrypted
    && item.timestamp == nowMs / 1000
    && item.owner == account
    && item.category == draft.category
    && item.status == Some(PENDING)
    && item.riskLevel.Some? && 1 <= item.riskLevel.value <= 10
  }

  /** `btoa(JSON.stringify(newData))` succeeds. The JSON text adds only
      ASCII around the three form fields (keys, quotes, and escapes of
      control characters, quotes and backslashes), so it succeeds exactly
      when every field is Latin-1. */
  predicate Encodable(draft: Draft) {
    Latin1(draft.category) && Latin1(draft.description) && Latin1(draft.content)
  }

  function FailureOf(w: WriteOutcome): Failure
    requires w != Resolved
  {
    if w == UserRejected then Rejected else WriteFailed
  }

  /** One run of `submitData`.
      - `hasSigner`: whether `getContractWithSigner()` gave a contract;
      - `encrypted`: the encoded form fields (the `FHE-` payload), used
        only when the draft is encodable;
      - `id`, `nowMs`, `risk`: the fresh id, `Date.now()` and the random
        risk level drawn by the source;
      - `recordWrite`, `indexWrite`: how the two transactions end. */
  function Submit(session: Session, hasSigner: bool, store: Store, draft: Draft, encrypted: string,
                  id: string, nowMs: nat, risk: int,
                  recordWrite: WriteOutcome, indexWrite: WriteOutcome): (r: OpResult)
    requires 1 <= risk <= 10
    // Without a provider nothing happens but an alert.
    ensures !session.provider <==> r.outcome == NotConnected
    ensures r.outcome == NotConnected ==> r.writes == []
    // Encoding comes first; a character beyond Latin-1 stops everything.
    ensures session.provider && !Encodable(draft) ==> r == OpResult(Failed(Unencodable), [])
    ensures session.provider && Encodable(draft) && !hasSigner ==> r == OpResult(Failed(NoSigner), [])
    // At most two writes: first the record, then the index.
    ensures |r.writes| <= 2
    ensures |r.writes| >= 1 ==>
              && Encodable(draft)
              && r.writes[0].PutRecord?
              && r.writes[0].id == id
              && IsNewRecord(r.writes[0].item, session.account, draft, encrypted, nowMs)
    ensures |r.writes| == 2 ==>
              && store.index != Unreadable
              && r.writes[1] == PutIndex(IndexKeys(store.index).value + [id])
    // Success is exactly "encodable text and both calls resolved".
    ensures r.outcome == Done <==> |r.writes| == 2
    ensures r.outcome == Done <==>
              session.provider && Encodable(draft) && hasSigner && recordWrite == Resolved &&
              !store.index.Unreadable? && indexWrite == Resolved
    // A failed record transaction leaves the contract untouched.
    ensures recordWrite != Resolved ==> r.writes == []
    // How each failing call is reported: a declined signature apart from
    // any other failure.
    ensures session.provider && Encodable(draft) && hasSigner && recordWrite == UserRejected ==>
              r == OpResult(Failed(Rejected), [])
    ensures session.provider && Encodable(draft) && hasSigner && recordWrite == CallFailed ==>
              r == OpResult(Failed(WriteFailed), [])
    ensures session.provider && Encodable(draft) && hasSigner && recordWrite == Resolved ==>
              && (store.index.Unreadable? ==> r.outcome == Failed(ReadFailed))
              && (!store.index.Unreadable? && indexWrite == UserRejected ==> r.outcome == Failed(Rejected))
              && (!store.index.Unreadable? && indexWrite == CallFailed ==> r.outcome == Failed(WriteFailed))
    // Once the record call resolved, the record stays written even if the
    // index step then fails.
    ensures session.provider && Encodable(draft) && hasSigner && recordWrite == Resolved ==>
              |r.writes| >= 1
  {
    if !session.provider then OpResult(NotConnected, [])
    else if !Encodable(draft) then OpResult(Failed(Unencodable), [])
    else if !hasSigner then OpResult(Failed(NoSigner), [])
    else
      var item := StoredItem(encrypted, nowMs / 1000, session.account, draft.category,
                             Some(PENDING), Some(risk));
      if recordWrite != Resolved then OpResult(Failed(FailureOf(recordWrite)), [])
      else
        var written := [PutRecord(id, item)];
        match IndexKeys(store.index)
        case None => OpResult(Failed(ReadFailed), written)
        case Some(keys) =>
          if indexWrite != Resolved then OpResult(Failed(FailureOf(indexWrite)), written)
          else OpResult(Done, written + [PutIndex(keys + [id])])
  }

  /** The contract after a creation. On success the record is stored and
      the index is the old one with `id` appended (just `[id]` when the old
      index was empty or malformed). If the index step failed after the
      record was written, the record exists but no index entry names it.
      No other record changes in any case. */
  lemma SubmitEffect(session: Session, hasSigner: bool, store: Store, draft: Draft, encrypted: string,
                     id: string, nowMs: nat, risk: int,
                     recordWrite: WriteOutcome, indexWrite: WriteOutcome)
    requires 1 <= risk <= 10
    ensures var r := Submit(session, hasSigner, store, draft, encrypted, id, nowMs, risk, recordWrite, indexWrite);
            var after := Apply(store, r.writes);
            && (forall k :: k != id ==> ReadRecord(after.records, k) == ReadRecord(store.records, k))
            && (r.writes == [] ==> after == store)
            && (r.outcome == Done ==>
                  && (store.index.Item? ==> after.index == Item(store.index.payload + [id]))
                  && (store.index.Empty? || store.index.Malformed? ==> after.index == Item([id]))
                  && ReadRecord(after.records, id).Item?
                  && IsNewRecord(ReadRecord(after.records, id).payload, session.account, draft, encrypted, nowMs))
            && (session.provider && Encodable(draft) && hasSigner && recordWrite == Resolved &&
                r.outcome != Done ==>
                  && after.index == store.index
                  && ReadRecord(after.records, id).Item?
                  && IsNewRecord(ReadRecord(after.records, id).payload, session.account, draft, encrypted, nowMs))
  {
    var r := Submit(session, hasSigner, store, draft, encrypted, id, nowMs, risk, recordWrite, indexWrite);
    if |r.writes| == 1 {
      assert Apply(store, r.writes) == Put(store, r.writes[0]);
    } else if |r.writes| == 2 {
      var mid := Put(store, r.writes[0]);
      assert r.writes[1..] == [r.writes[1]];
      assert Apply(store, r.writes) == Put(mid, r.writes[1]);
      if store.index.Empty? || store.index.Malformed? {
        assert IndexKeys(store.index).value + [id] == [id];
      }
    }
  }

  /** A description holding a euro sign (U+20AC) cannot be encoded: the
      creation fails before any transaction, whatever the signer and the
      calls would have done. */
  lemma EuroSignStopsCreation(session: Session, hasSigner: bool, store: Store, encrypted: string,
                              id: string, nowMs: nat, risk: int,
                              recordWrite: WriteOutcome, indexWrite: WriteOutcome)
    requires 1 <= risk <= 10
    requires session.provider
    ensures Submit(session, hasSigner, store, Draft("Credentials", "\U{20AC}5 each", ""), encrypted,
                   id, nowMs, risk, recordWrite, indexWrite)
            == OpResult(Failed(Unencodable), [])
  {
    assert "\U{20AC}5 each"[0] as int == 0x20AC;
  }
}

=== FILE: loading.dfy ===
/** `loadMarketData`: rebuild the whole snapshot from the index and the
    record blobs it names. Read failures degrade, they never surface. */
module Loading {
  import opened Blobs
  import opened Seqs
  import opened Market
  import opened Sorting

  /** The read-only contract handle: `isAvailable()` and the state behind
      `getData`. */
  datatype Gateway = Gateway(available: bool, store: Store)

  /** The index as the loader and the creator see it: an empty or
      unparsable blob is an empty list; a failed read yields nothing,
      because the exception escapes to the caller's handler. */
  function IndexKeys(b: Blob<seq<string>>): (r: Option<seq<string>>)
    ensures b.Unreadable? <==> r.None?
    ensures b.Item? ==> r == Some(b.payload)
    ensures b.Empty? || b.Malformed? ==> r == Some([])
  {
    match b
    case Item(keys) => Some(keys)
    case Unreadable => None
    case _ => Some([])
  }

  /** Index keys whose blob is present and decodes. */
  function Live(records: map<string, Blob<StoredItem>>): string -> bool {
    k => ReadRecord(records, k).Item?
  }

  /** The record ids of a list of rows, in order. */
  function Ids(s: seq<MarketData>): (r: seq<string>)
    ensures |r| == |s|
  {
    if |s| == 0 then [] else [s[0].id] + Ids(s[1..])
  }

  /** The `for (const key of keys)` loop: one row per key whose blob is
      present and decodes, in index order; empty, malformed and unreadable
      blobs are skipped one by one. */
  function Collect(keys: seq<string>, records: map<string, Blob<StoredItem>>): (r: seq<MarketData>)
    ensures Ids(r) == Filter(keys, Live(records))
    ensures |r| <= |keys|
    decreases |keys|
  {
    if |keys| == 0 then []
    else
      var rest := Collect(keys[1..], records);
      match ReadRecord(records, keys[0])
      case Item(f) =>
        var e := Entry(keys[0], f);
        assert Ids([e] + rest) == [keys[0]] + Ids(rest) by {
          assert ([e] + rest)[1..] == rest;
        }
        [e] + rest
      case _ => rest
  }

  /** Every collected row is the entry built from the decodable blob of
      one of the index keys. */
  lemma {:induction false} CollectRows(keys: seq<string>, records: map<string, Blob<StoredItem>>)
    ensures forall e :: e in Collect(keys, records) ==>
              e.id in keys &&
              ReadRecord(records, e.id).Item? &&
              e == Entry(e.id, ReadRecord(records, e.id).payload)
    decreases |keys|
  {
    if |keys| > 0 {
      CollectRows(keys[1..], records);
      assert forall k :: k in keys[1..] ==> k in keys;
    }
  }

  /** Rows for `keys ++ more` are the rows for `keys` followed by those for
      `more`: each key is handled independently of the others. */
  lemma {:induction false} CollectAppend(keys: seq<string>, more: seq<string>, records: map<string, Blob<StoredItem>>)
    ensures Collect(keys + more, records) == Collect(keys, records) + Collect(more, records)
    decreases |keys|
  {
    if |keys| == 0 {
      assert keys + more == more;
    } else {
      assert (keys + more)[0] == keys[0];
      assert (keys + more)[1..] == keys[1..] + more;
      CollectAppend(keys[1..], more, records);
    }
  }

  /** Storing a decodable record under a new key and appending that key
      adds exactly its row after the existing ones. */
  lemma CollectAppendNew(keys: seq<string>, id: string, item: StoredItem, records: map<string, Blob<StoredItem>>)
    requires id !in keys
    ensures Collect(keys + [id], records[id := Item(item)]) == Collect(keys, records) + [Entry(id, item)]
  {
    var updated := records[id := Item(item)];
    CollectAppend(keys, [id], updated);
    CollectFrame(keys, updated, records);
    assert [id][1..] == [];
    assert ReadRecord(updated, id) == Item(item);
  }

  /** Rows depend only on the blobs the keys name. */
  lemma {:induction false} CollectFrame(keys: seq<string>, a: map<string, Blob<StoredItem>>, b: map<string, Blob<StoredItem>>)
    requires forall k :: k in keys ==> ReadRecord(a, k) == ReadRecord(b, k)
    ensures Collect(keys, a) == Collect(keys, b)
    decreases |keys|
  {
    if |keys| > 0 {
      assert forall k :: k in keys[1..] ==> k in keys;
      CollectFrame(keys[1..], a, b);
      assert ReadRecord(a, keys[0]) == ReadRecord(b, keys[0]);
    }
  }

  /** `loadMarketData` as a snapshot transition. `contract` is what
      `getContractReadOnly()` resolved to. With no contract, an unavailable
      one, or an index read that throws, the function leaves before
      `setMarketData` and the snapshot is kept; otherwise the snapshot is
      replaced by the collected rows, newest first. */
  function Load(contract: Option<Gateway>, snapshot: seq<MarketData>): (r: seq<MarketData>)
    ensures contract.None? ==> r == snapshot
    ensures contract.Some? && !contract.value.available ==> r == snapshot
    ensures contract.Some? && contract.value.store.index.Unreadable? ==> r == snapshot
    ensures contract.Some? && contract.value.available &&
            (contract.value.store.index.Empty? || contract.value.store.index.Malformed?)
            ==> r == []
    ensures contract.Some? && contract.value.available && contract.value.store.index.Item? ==>
              var keys := contract.value.store.index.payload;
              var records := contract.value.store.records;
              && NewestFirst(r)
              && multiset(r) == multiset(Collect(keys, records))
              && |r| <= |keys|
              && (forall e :: e in r ==>
                    e.id in keys && ReadRecord(records, e.id).Item? &&
                    e == Entry(e.id, ReadRecord(records, e.id).payload))
  {
    match contract
    case None => snapshot
    case Some(g) =>
      if !g.available then snapshot
      else match IndexKeys(g.store.index)
        case None => snapshot
        case Some(keys) =>
          var rows := Collect(keys, g.store.records);
          CollectRows(keys, g.store.records);
          var r := SortNewestFirst(rows);
          assert forall e :: e in r ==> e in multiset(rows);
          r
  }
}

=== FILE: loading_facts.dfy ===
/** Facts about loads that combine the collection step with sorting. */
module LoadingFacts {
  import opened Blobs
  import opened Seqs
  import opened Market
  import opened Sorting
  import opened Loading

  lemma IdsCons(x: MarketData, s: seq<MarketData>)
    ensures Ids([x] + s) == [x.id] + Ids(s)
  {
    assert ([x] + s)[1..] == s;
  }

  lemma {:induction false} InsertKeepsIds(x: MarketData, s: seq<MarketData>)
    requires NewestFirst(s)
    ensures multiset(Ids(Insert(x, s))) == multiset(Ids(s)) + multiset{x.id}
    decreases |s|
  {
    if |s| == 0 || s[0].timestamp <= x.timestamp {
      IdsCons(x, s);
    } else {
      var t := Insert(x, s[1..]);
      InsertKeepsIds(x, s[1..]);
      assert Insert(x, s) == [s[0]] + t;
      IdsCons(s[0], t);
      assert Ids(s) == [s[0].id] + Ids(s[1..]);
      calc {
        multiset(Ids(Insert(x, s)));
        multiset([s[0].id] + Ids(t));
        multiset([s[0].id]) + multiset(Ids(t));
        multiset([s[0].id]) + (multiset(Ids(s[1..])) + multiset{x.id});
        multiset([s[0].id] + Ids(s[1..])) + multiset{x.id};
      }
    }
  }

  /** Sorting moves rows around but keeps the multiset of their ids. */
  lemma {:induction false} SortKeepsIds(s: seq<MarketData>)
    ensures multiset(Ids(SortNewestFirst(s))) == multiset(Ids(s))
    decreases |s|
  {
    if |s| > 0 {
      SortKeepsIds(s[1..]);
      InsertKeepsIds(s[0], SortNewestFirst(s[1..]));
    }
  }

  /** A successful load holds one row per index entry whose blob is present
      and decodes (as often as the index lists it), and none for the
      others. */
  lemma LoadedIdsAreLiveKeys(g: Gateway, snapshot: seq<MarketData>)
    requires g.available && g.store.index.Item?
    ensures multiset(Ids(Load(Some(g), snapshot))) ==
            multiset(Filter(g.store.index.payload, Live(g.store.records)))
  {
    SortKeepsIds(Collect(g.store.index.payload, g.store.records));
  }

  /** Index ["a1", "a2"] where the blob of "a2" is empty: the snapshot holds
      the row of "a1" only. */
  lemma EmptyBlobIsSkipped(a1: StoredItem, snapshot: seq<MarketData>)
    ensures Load(Some(Gateway(true, Store(Item(["a1", "a2"]), map["a1" := Item(a1), "a2" := Empty]))), snapshot)
            == [Entry("a1", a1)]
  {
    var records := map["a1" := Item(a1), "a2" := Empty];
    assert ["a1", "a2"][1..] == ["a2"];
    assert ["a2"][1..] == [];
    assert Collect(["a1", "a2"], records) == [Entry("a1", a1)];
  }
}

=== FILE: market.dfy ===
/** The data model of the dashboard: the record blob persisted under
    `market_<id>`, the client-side `MarketData` built from it, and the
    contract's state as the dashboard sees it. */
module Market {
  import opened Blobs

  const PENDING := "pending"
  const ANALYZED := "analyzed"
  const FLAGGED := "flagged"

  /** Contract key of the record index. */
  const INDEX_KEY := "market_keys"
  /** Prefix of every record key. */
  const RECORD_PREFIX := "market_"

  /** The JSON object written under `market_<id>`. `status` and `riskLevel`
      are optional because the loader tolerates blobs that lack them. */
  datatype StoredItem = StoredItem(
    data: string,
    timestamp: int,
    owner: string,
    category: string,
    status: Option<string>,
    riskLevel: Option<int>)

  /** One row of the client-side snapshot (the `MarketData` interface). */
  datatype MarketData = MarketData(
    id: string,
    encryptedData: string,
    timestamp: int,
    owner: string,
    category: string,
    status: string,
    riskLevel: int)

  /** The contract's key-value state: the index blob under `market_keys`
      and the record blobs, keyed by record id (the contract key being
      `RecordKey(id)`). */
  datatype Store = Store(index: Blob<seq<string>>, records: map<string, Blob<StoredItem>>)

  function RecordKey(id: string): string {
    RECORD_PREFIX + id
  }

  /** Distinct ids name distinct contract keys, so keying the records by
      id loses nothing. */
  lemma RecordKeyInjective(a: string, b: string)
    ensures RecordKey(a) == RecordKey(b) <==> a == b
  {
    if RecordKey(a) == RecordKey(b) {
      assert a == RecordKey(a)[|RECORD_PREFIX|..];
      assert b == RecordKey(b)[|RECORD_PREFIX|..];
    }
  }

  /** Record keys and the index key share one namespace: the record key of
      id "keys" is the index key itself, and no other id reaches it. */
  lemma RecordKeyIsIndexKey(id: string)
    ensures RecordKey(id) == INDEX_KEY <==> id == "keys"
  {
    if RecordKey(id) == INDEX_KEY {
      assert id == RecordKey(id)[|RECORD_PREFIX|..];
      assert INDEX_KEY[|RECORD_PREFIX|..] == "keys";
    }
  }

  /** `getData(market_<id>)`: an unset key reads as empty bytes. */
  function ReadRecord(records: map<string, Blob<StoredItem>>, id: string): (b: Blob<StoredItem>)
    ensures id !in records ==> b.Empty?
    ensures id in records ==> b == records[id]
  {
    if id in records then records[id] else Empty
  }

  /** JavaScript's `status || "pending"`: an absent or empty status reads
      as pending; any other stored string is shown as is. */
  function DisplayStatus(s: Option<string>): (r: string)
    ensures r != ""
    ensures s.Some? && s.value != "" ==> r == s.value
    ensures s.None? || s.value == "" ==> r == PENDING
  {
    match s
    case Some(v) => if v == "" then PENDING else v
    case None => PENDING
  }

  /** The snapshot row built from the blob stored for index key `id`
      (App.tsx fills in `id` from the key, not from the blob). */
  function Entry(id: string, f: StoredItem): (e: MarketData)
    ensures e.id == id
    ensures e.encryptedData == f.data && e.timestamp == f.timestamp
    ensures e.owner == f.owner && e.category == f.category
    ensures e.status == DisplayStatus(f.status)
    ensures f.riskLevel.None? ==> e.riskLevel == 0
    ensures f.riskLevel.Some? ==> e.riskLevel == f.riskLevel.value
  {
    MarketData(id, f.data, f.timestamp, f.owner, f.category,
               DisplayStatus(f.status), f.riskLevel.GetOr(0))
  }

  /** A record has left `pending` for good: it holds a decodable blob whose
      displayed status is something else. */
  predicate Advanced(st: Store, id: string) {
    var b := ReadRecord(st.records, id);
    b.Item? && DisplayStatus(b.payload.status) != PENDING
  }
}

=== FILE: mutation.dfy ===
/** `analyzeData` and `flagData`: one read-modify-write of a single record
    blob that changes its status and nothing else. */
module Mutation {
  import opened Blobs
  import opened Market
  import opened Writes

  datatype Action = Analyze | Flag

  /** The status each action writes. */
  function Target(a: Action): (s: string)
    ensures a == Analyze <==> s == ANALYZED
    ensures a == Flag <==> s == FLAGGED
    ensures s != PENDING && s != ""
  {
    match a
    case Analyze => ANALYZED
    case Flag => FLAGGED
  }

  /** `after` is `before` with only its status replaced by `status`
      (the `{ ...marketItem, status }` spread). */
  predicate StatusOnly(before: StoredItem, after: StoredItem, status: string) {
    && after.status == Some(status)
    && after.data == before.data
    && after.timestamp == before.timestamp
    && after.owner == before.owner
    && after.category == before.category
    && after.riskLevel == before.riskLevel
  }

  /** One run of `analyzeData` (a == Analyze) or `flagData` (a == Flag) on
      record `id`; `write` is how its single transaction ends. Neither
      function tells a declined transaction apart from another failure. */
  function SetStatus(a: Action, session: Session, hasSigner: bool, store: Store, id: string,
                     write: WriteOutcome): (r: OpResult)
    ensures !session.provider <==> r.outcome == NotConnected
    ensures |r.writes| <= 1
    ensures r.outcome == Done <==> |r.writes| == 1
    // A missing record is reported and nothing is written.
    ensures session.provider && hasSigner && ReadRecord(store.records, id).Empty? ==>
              r == OpResult(Failed(NotFound), [])
    ensures session.provider && hasSigner && ReadRecord(store.records, id).Malformed? ==>
              r == OpResult(Failed(Undecodable), [])
    ensures session.provider && hasSigner && ReadRecord(store.records, id).Unreadable? ==>
              r == OpResult(Failed(ReadFailed), [])
    ensures session.provider && !hasSigner ==> r == OpResult(Failed(NoSigner), [])
    // Every failing transaction reports the same way, declined or not.
    ensures session.provider && hasSigner && ReadRecord(store.records, id).Item? && write != Resolved ==>
              r == OpResult(Failed(WriteFailed), [])
    // The only write rewrites `id` with a new status and the same fields.
    ensures |r.writes| == 1 ==>
              && r.writes[0].PutRecord?
              && r.writes[0].id == id
              && ReadRecord(store.records, id).Item?
              && StatusOnly(ReadRecord(store.records, id).payload, r.writes[0].item, Target(a))
    ensures r.outcome == Done <==>
              session.provider && hasSigner && ReadRecord(store.records, id).Item? && write == Resolved
  {
    if !session.provider then OpResult(NotConnected, [])
    else if !hasSigner then OpResult(Failed(NoSigner), [])
    else
      match ReadRecord(store.records, id)
      case Unreadable => OpResult(Failed(ReadFailed), [])
      case Empty => OpResult(Failed(NotFound), [])
      case Malformed => OpResult(Failed(Undecodable), [])
      case Item(f) =>
        if write != Resolved then OpResult(Failed(WriteFailed), [])
        else OpResult(Done, [PutRecord(id, f.(status := Some(Target(a))))])
  }

  /** The contract after a status change: the index and every other record
      are untouched; `id` holds its old fields with the new status. */
  lemma SetStatusEffect(a: Action, session: Session, hasSigner: bool, store: Store, id: string,
                        write: WriteOutcome)
    ensures var r := SetStatus(a, session, hasSigner, store, id, write);
            var after := Apply(store, r.writes);
            && after.index == store.index
            && (forall k :: k != id ==> ReadRecord(after.records, k) == ReadRecord(store.records, k))
            && (r.outcome != Done ==> after == store)
            && (r.outcome == Done ==>
                  && ReadRecord(after.records, id).Item?
                  && StatusOnly(ReadRecord(store.records, id).payload,
                                ReadRecord(after.records, id).payload, Target(a)))
  {
    var r := SetStatus(a, session, hasSigner, store, id, write);
    if |r.writes| == 1 {
      assert Apply(store, r.writes) == Put(store, r.writes[0]);
    }
  }

  /** Analyzing a record and then flagging it, both calls resolving, shows
      it as analyzed in between and as flagged at the end, with every other
      field and the index as they were. */
  lemma AnalyzeThenFlag(session: Session, store: Store, id: string, f: StoredItem)
    requires session.provider
    requires ReadRecord(store.records, id) == Item(f)
    ensures var r1 := SetStatus(Analyze, session, true, store, id, Resolved);
            var mid := Apply(store, r1.writes);
            var r2 := SetStatus(Flag, session, true, mid, id, Resolved);
            var last := Apply(mid, r2.writes);
            && r1.outcome == Done && r2.outcome == Done
            && ReadRecord(mid.records, id).Item?
            && DisplayStatus(ReadRecord(mid.records, id).payload.status) == ANALYZED
            && ReadRecord(last.records, id).Item?
            && StatusOnly(f, ReadRecord(last.records, id).payload, FLAGGED)
            && DisplayStatus(ReadRecord(last.records, id).payload.status) == FLAGGED
            && last.index == store.index
  {
    var r1 := SetStatus(Analyze, session, true, store, id, Resolved);
    var mid := Apply(store, r1.writes);
    SetStatusEffect(Analyze, session, true, store, id, Resolved);
    SetStatusEffect(Flag, session, true, mid, id, Resolved);
  }
}

=== FILE: protocol.dfy ===
/** How the operations compose: each successful mutation is followed by a
    full reload of the snapshot; failures keep the snapshot as it was. */
module Protocol {
  import opened Blobs
  import opened Market
  import opened Loading
  import opened Writes
  import opened Creation
  import opened Mutation
  import opened Views

  /** The snapshot after an operation. `reader` is the read-only contract
      for the reload (`None` when none could be obtained, otherwise what
      `isAvailable()` answered). Only a successful operation reloads. */
  function Refresh(r: OpResult, store: Store, reader: Option<bool>, snapshot: seq<MarketData>): (s: seq<MarketData>)
    ensures r.outcome != Done ==> s == snapshot
    ensures reader.None? ==> s == snapshot
  {
    if r.outcome != Done then snapshot
    else match reader
      case None => snapshot
      case Some(available) => Load(Some(Gateway(available, Apply(store, r.writes))), snapshot)
  }

  /** A status change on an id with no record reports "Data not found",
      writes nothing, and keeps both the index and the snapshot. */
  lemma MissingRecordChangesNothing(a: Action, session: Session, store: Store, id: string,
                                    write: WriteOutcome, reader: Option<bool>, snapshot: seq<MarketData>)
    requires session.provider
    requires ReadRecord(store.records, id).Empty?
    ensures var r := SetStatus(a, session, true, store, id, write);
            && r.outcome == Failed(NotFound)
            && Apply(store, r.writes) == store
            && Refresh(r, store, reader, snapshot) == snapshot
  {
  }

  /** With a provider, a signer, a readable index and both calls resolved,
      a creation succeeds exactly when the form text is encodable. Then,
      for a fresh id, the index lists the old keys and then `id`, and the
      rows it yields are the old rows followed by the new record's row. */
  lemma RowsAfterSubmit(session: Session, store: Store, draft: Draft, encrypted: string,
                        id: string, nowMs: nat, risk: int)
    requires 1 <= risk <= 10
    requires session.provider
    requires !store.index.Unreadable?
    requires id !in IndexKeys(store.index).value
    ensures var r := Submit(session, true, store, draft, encrypted, id, nowMs, risk, Resolved, Resolved);
            var after := Apply(store, r.writes);
            var keys := IndexKeys(store.index).value;
            && (r.outcome == Done <==> Encodable(draft))
            && (r.outcome == Done ==>
                  && after.index == Item(keys + [id])
                  && Collect(keys + [id], after.records) ==
                     Collect(keys, store.records) + [Entry(id, r.writes[0].item)])
  {
    var r := Submit(session, true, store, draft, encrypted, id, nowMs, risk, Resolved, Resolved);
    if !Encodable(draft) {
      return;
    }
    var keys := IndexKeys(store.index).value;
    var item := r.writes[0].item;
    assert r.writes == [PutRecord(id, item), PutIndex(keys + [id])];
    var mid := Put(store, PutRecord(id, item));
    assert Apply(store, r.writes) == Put(mid, PutIndex(keys + [id])) by {
      assert r.writes[1..] == [PutIndex(keys + [id])];
    }
    assert Apply(store, r.writes).records == store.records[id := Item(item)];
    CollectAppendNew(keys, id, item, store.records);
  }

  /** If the new rows are the old rows plus `e`, and no old row has `e`'s
      id, then `e` is the one and only row with that id. */
  lemma OnlyNewRowHasId(oldRows: seq<MarketData>, e: MarketData, shown: seq<MarketData>, keys: seq<string>)
    requires multiset(shown) == multiset(oldRows) + multiset{e}
    requires forall x :: x in oldRows ==> x.id in keys
    requires e.id !in keys
    ensures multiset(shown)[e] == 1
    ensures forall x :: x in shown && x.id == e.id ==> x == e
  {
    assert e !in oldRows;
    forall x | x in shown && x.id == e.id
      ensures x == e
    {
      assert x in multiset(oldRows) + multiset{e};
    }
  }

  /** Creating a record with a fresh id and reloading shows the old rows
      plus exactly one new row: pending, owned by the submitting account,
      in the submitted category, with a risk level in 1..10. When the form
      text cannot be encoded, the snapshot stays as it was. */
  lemma SubmitThenLoad(session: Session, store: Store, draft: Draft, encrypted: string,
                       id: string, nowMs: nat, risk: int, snapshot: seq<MarketData>)
    requires 1 <= risk <= 10
    requires session.provider
    requires !store.index.Unreadable?
    requires id !in IndexKeys(store.index).value
    ensures var r := Submit(session, true, store, draft, encrypted, id, nowMs, risk, Resolved, Resolved);
            var shown := Refresh(r, store, Some(true), snapshot);
            && (r.outcome == Done <==> Encodable(draft))
            && (r.outcome != Done ==> shown == snapshot)
            && (r.outcome == Done ==>
                  var e := Entry(id, r.writes[0].item);
                  && multiset(shown) == multiset(Collect(IndexKeys(store.index).value, store.records)) + multiset{e}
                  && multiset(shown)[e] == 1
                  && (forall x :: x in shown && x.id == id ==> x == e)
                  && e.status == PENDING && e.owner == session.account && e.category == draft.category
                  && 1 <= e.riskLevel <= 10)
  {
    var r := Submit(session, true, store, draft, encrypted, id, nowMs, risk, Resolved, Resolved);
    if !Encodable(draft) {
      return;
    }
    RowsAfterSubmit(session, store, draft, encrypted, id, nowMs, risk);
    var keys := IndexKeys(store.index).value;
    var e := Entry(id, r.writes[0].item);
    var oldRows := Collect(keys, store.records);
    var shown := Refresh(r, store, Some(true), snapshot);
    assert multiset(shown) == multiset(oldRows + [e]);
    CollectRows(keys, store.records);
    OnlyNewRowHasId(oldRows, e, shown, keys);
  }

  /** One step of a session: a creation or a status change. */
  datatype Step =
    | Create(session: Session, hasSigner: bool, draft: Draft, encrypted: string, id: string,
             nowMs: nat, risk: int, recordWrite: WriteOutcome, indexWrite: WriteOutcome)
    | Change(action: Action, session: Session, hasSigner: bool, id: string, write: WriteOutcome)

  /** A creation draws its risk level from 1..10 and a fresh id, one with
      no record blob yet. */
  predicate ValidStep(store: Store, step: Step) {
    step.Create? ==> 1 <= step.risk <= 10 && ReadRecord(store.records, step.id).Empty?
  }

  function StepResult(store: Store, step: Step): OpResult
    requires ValidStep(store, step)
  {
    match step
    case Create(session, hasSigner, draft, encrypted, id, nowMs, risk, recordWrite, indexWrite) =>
      Submit(session, hasSigner, store, draft, encrypted, id, nowMs, risk, recordWrite, indexWrite)
    case Change(action, session, hasSigner, id, write) =>
      SetStatus(action, session, hasSigner, store, id, write)
  }

  function After(store: Store, step: Step): Store
    requires ValidStep(store, step)
  {
    Apply(store, StepResult(store, step).writes)
  }

  predicate ValidRun(store: Store, steps: seq<Step>)
    decreases |steps|
  {
    |steps| == 0 || (ValidStep(store, steps[0]) && ValidRun(After(store, steps[0]), steps[1..]))
  }

  /** The contract state after a sequence of operations. */
  function Run(store: Store, steps: seq<Step>): Store
    requires ValidRun(store, steps)
    decreases |steps|
  {
    if |steps| == 0 then store else Run(After(store, steps[0]), steps[1..])
  }

  /** No single operation writes "pending" over a record that has left it. */
  lemma StepKeepsAdvanced(store: Store, step: Step, id: string)
    requires ValidStep(store, step)
    requires Advanced(store, id)
    ensures Advanced(After(store, step), id)
  {
    match step
    case Create(session, hasSigner, draft, encrypted, nid, nowMs, risk, recordWrite, indexWrite) =>
      SubmitEffect(session, hasSigner, store, draft, encrypted, nid, nowMs, risk, recordWrite, indexWrite);
    case Change(action, session, hasSigner, cid, write) =>
      SetStatusEffect(action, session, hasSigner, store, cid, write);
  }

  /** Once a record has been analyzed or flagged, no sequence of
      operations brings it back to pending. */
  lemma {:induction false} NeverBackToPending(store: Store, steps: seq<Step>, id: string)
    requires ValidRun(store, steps)
    requires Advanced(store, id)
    ensures Advanced(Run(store, steps), id)
    decreases |steps|
  {
    if |steps| > 0 {
      StepKeepsAdvanced(store, steps[0], id);
      NeverBackToPending(After(store, steps[0]), steps[1..], id);
    }
  }

  /** The record state machine: pending may become analyzed, anything may
      become flagged. */
  predicate AllowedTransition(from: string, to: string) {
    (from == PENDING && to == ANALYZED) || to == FLAGGED
  }

  /** The buttons enforce the state machine while the snapshot is up to
      date: an action offered on a snapshot row whose record still holds
      what the row shows, once it succeeds, moves the record along an
      allowed transition, and a flagged row offers nothing that leaves
      "flagged". */
  lemma OfferedActionsFollowStateMachine(a: Action, session: Session, hasSigner: bool, store: Store,
                                         snapshot: seq<MarketData>, row: MarketData, f: StoredItem,
                                         write: WriteOutcome)
    requires row in snapshot
    requires a in Offered(session.account, row)
    requires ReadRecord(store.records, row.id) == Item(f)
    requires row == Entry(row.id, f)
    ensures var r := SetStatus(a, session, hasSigner, store, row.id, write);
            var after := Apply(store, r.writes);
            r.outcome == Done ==>
              && ReadRecord(after.records, row.id).Item?
              && AllowedTransition(row.status,
                                   DisplayStatus(ReadRecord(after.records, row.id).payload.status))
    ensures row.status == FLAGGED ==> a == Flag
  {
    SetStatusEffect(a, session, hasSigner, store, row.id, write);
  }

  /** Neither action re-checks the stored status, so a stale snapshot
      breaks the state machine. Flag a pending record; when the reload
      then gets no usable read-only contract, the snapshot still shows the
      row as pending and still offers Analyze, and analyzing it turns the
      flagged record into an analyzed one. */
  lemma StaleSnapshotUnflags(session: Session, store: Store, id: string, f: StoredItem,
                             reader: Option<bool>)
    requires session.provider
    requires ReadRecord(store.records, id) == Item(f)
    requires DisplayStatus(f.status) == PENDING
    requires IsOwner(session.account, f.owner)
    requires reader != Some(true)
    ensures var snapshot := [Entry(id, f)];
            var r1 := SetStatus(Flag, session, true, store, id, Resolved);
            var mid := Apply(store, r1.writes);
            var shown := Refresh(r1, store, reader, snapshot);
            var r2 := SetStatus(Analyze, session, true, mid, id, Resolved);
            var last := Apply(mid, r2.writes);
            && r1.outcome == Done
            && shown == snapshot
            && Analyze in Offered(session.account, shown[0])
            && ReadRecord(mid.records, id).Item?
            && DisplayStatus(ReadRecord(mid.records, id).payload.status) == FLAGGED
            && r2.outcome == Done
            && ReadRecord(last.records, id).Item?
            && DisplayStatus(ReadRecord(last.records, id).payload.status) == ANALYZED
            && !AllowedTransition(FLAGGED, ANALYZED)
  {
    SetStatusEffect(Flag, session, true, store, id, Resolved);
    var mid := Apply(store, SetStatus(Flag, session, true, store, id, Resolved).writes);
    SetStatusEffect(Analyze, session, true, mid, id, Resolved);
  }
}

=== FILE: seqs.dfy ===
/** Sequence utilities the dashboard's derived views are built from:
    `Array.prototype.filter` and the subsequence relation it guarantees. */
module Seqs {

  /** `r` can be obtained from `s` by deleting elements, keeping order. */
  predicate IsSubsequence<T(==)>(r: seq<T>, s: seq<T>)
    decreases |s|
  {
    |r| == 0 ||
    (|s| > 0 &&
     ((r[0] == s[0] && IsSubsequence(r[1..], s[1..])) || IsSubsequence(r, s[1..])))
  }

  /** The elements of `s` that satisfy `p`, in their original order. */
  function Filter<T(==,!new)>(s: seq<T>, p: T -> bool): (r: seq<T>)
    ensures |r| <= |s|
    ensures IsSubsequence(r, s)
    ensures forall x :: x in r ==> x in s && p(x)
    ensures forall i :: 0 <= i < |s| && p(s[i]) ==> s[i] in r
  {
    if |s| == 0 then []
    else
      assert s == [s[0]] + s[1..];
      if p(s[0]) then [s[0]] + Filter(s[1..], p) else Filter(s[1..], p)
  }

  /** Filter keeps every element satisfying `p` as often as `s` has it,
      and no other element. */
  lemma {:induction false} FilterCounts<T(!new)>(s: seq<T>, p: T -> bool)
    ensures forall x :: multiset(Filter(s, p))[x] == if p(x) then multiset(s)[x] else 0
    decreases |s|
  {
    if |s| > 0 {
      FilterCounts(s[1..], p);
      assert s == [s[0]] + s[1..];
    }
  }

  /** Filtering distributes over concatenation; this is what lets a loop
      that visits a list front to back accumulate a filter of its prefix. */
  lemma {:induction false} FilterAppend<T(!new)>(a: seq<T>, b: seq<T>, p: T -> bool)
    ensures Filter(a + b, p) == Filter(a, p) + Filter(b, p)
    decreases |a|
  {
    if |a| == 0 {
      assert a + b == b;
    } else {
      assert (a + b)[1..] == a[1..] + b;
      assert (a + b)[0] == a[0];
      FilterAppend(a[1..], b, p);
    }
  }

  lemma FilterSingleton<T(!new)>(x: T, p: T -> bool)
    ensures Filter([x], p) == if p(x) then [x] else []
  {
    assert [x][1..] == [];
  }

  /** A filter whose predicate holds everywhere keeps everything. */
  lemma {:induction false} FilterKeepsAll<T(!new)>(s: seq<T>, p: T -> bool)
    requires forall i :: 0 <= i < |s| ==> p(s[i])
    ensures Filter(s, p) == s
    decreases |s|
  {
    if |s| > 0 {
      FilterKeepsAll(s[1..], p);
    }
  }
}

=== FILE: sorting.dfy ===
/** `list.sort((a, b) => b.timestamp - a.timestamp)`: newest first.
    JavaScript's sort is stable, so it is modelled as a stable insertion
    sort: an element is placed before every later element whose timestamp
    is not larger. */
module Sorting {
  import opened Market

  predicate NewestFirst(s: seq<MarketData>) {
    forall i, j :: 0 <= i < j < |s| ==> s[i].timestamp >= s[j].timestamp
  }

  /** Inserts `x` into a newest-first list, ahead of the first element no
      newer than it. */
  function Insert(x: MarketData, s: seq<MarketData>): (r: seq<MarketData>)
    requires NewestFirst(s)
    ensures NewestFirst(r)
    ensures multiset(r) == multiset(s) + multiset{x}
    ensures |r| == |s| + 1
    ensures r[0] == x || (|s| > 0 && r[0] == s[0])
    decreases |s|
  {
    if |s| == 0 || s[0].timestamp <= x.timestamp then [x] + s
    else
      var t := Insert(x, s[1..]);
      assert s == [s[0]] + s[1..];
      assert s[0].timestamp >= t[0].timestamp;
      [s[0]] + t
  }

  /** The snapshot order: a permutation of `s`, newest first. */
  function SortNewestFirst(s: seq<MarketData>): (r: seq<MarketData>)
    ensures NewestFirst(r)
    ensures multiset(r) == multiset(s)
    ensures |r| == |s|
    decreases |s|
  {
    if |s| == 0 then []
    else
      assert s == [s[0]] + s[1..];
      Insert(s[0], SortNewestFirst(s[1..]))
  }
}

=== FILE: text.dfy ===
/** The two string operations the dashboard's views use:
    `toLowerCase` (on ASCII letters) and `includes`. */
module Text {

  function LowerChar(c: char): char {
    if 'A' <= c <= 'Z' then (c as int + 32) as char else c
  }

  function Lower(s: string): (r: string)
    ensures |r| == |s|
  {
    if |s| == 0 then [] else [LowerChar(s[0])] + Lower(s[1..])
  }

  /** Lower-casing works character by character. */
  lemma {:induction false} LowerAt(s: string)
    ensures forall i :: 0 <= i < |s| ==> Lower(s)[i] == LowerChar(s[i])
    decreases |s|
  {
    if |s| > 0 {
      LowerAt(s[1..]);
    }
  }

  /** `a` and `b` spell the same letters, ignoring case. */
  predicate SameUpToCase(a: string, b: string) {
    |a| == |b| && forall i :: 0 <= i < |a| ==> LowerChar(a[i]) == LowerChar(b[i])
  }

  /** Comparing lower-cased strings is comparing up to case. */
  lemma LowerEqIffSameUpToCase(a: string, b: string)
    ensures Lower(a) == Lower(b) <==> SameUpToCase(a, b)
  {
    LowerAt(a);
    LowerAt(b);
    if SameUpToCase(a, b) {
      assert forall i :: 0 <= i < |a| ==> Lower(a)[i] == Lower(b)[i];
    }
  }

  /** `hay.includes(needle)`: `needle` starts at some position of `hay`. */
  predicate Contains(hay: string, needle: string)
    decreases |hay|
  {
    needle <= hay || (|hay| > 0 && Contains(hay[1..], needle))
  }

  /** `needle` occurs in `hay` starting at position `i`. */
  predicate OccursAt(hay: string, needle: string, i: int) {
    0 <= i && i + |needle| <= |hay| && hay[i..i + |needle|] == needle
  }

  /** `Contains` agrees with the positional reading of substring. */
  lemma {:induction false} ContainsIffOccurs(hay: string, needle: string)
    ensures Contains(hay, needle) <==> exists i :: OccursAt(hay, needle, i)
    decreases |hay|
  {
    if needle <= hay {
      assert OccursAt(hay, needle, 0);
    } else if |hay| > 0 {
      ContainsIffOccurs(hay[1..], needle);
      if Contains(hay[1..], needle) {
        var i :| OccursAt(hay[1..], needle, i);
        assert hay[i + 1..i + 1 + |needle|] == hay[1..][i..i + |needle|];
        assert OccursAt(hay, needle, i + 1);
      }
      if exists i :: OccursAt(hay, needle, i) {
        var i :| OccursAt(hay, needle, i);
        if i > 0 {
          assert hay[1..][i - 1..i - 1 + |needle|] == hay[i..i + |needle|];
          assert OccursAt(hay[1..], needle, i - 1);
        }
      }
    }
  }

  /** `btoa` accepts only characters up to U+00FF (Latin-1) and throws on
      any other. */
  predicate Latin1(s: string) {
    forall i :: 0 <= i < |s| ==> s[i] as int <= 0xFF
  }
}

=== FILE: views.dfy ===
/** What the dashboard derives from the snapshot: the owner check and the
    actions it gates, the search/category filter, the status counters and
    the risk histogram. */
module Views {
  import opened Seqs
  import opened Text
  import opened Market
  import opened Mutation

  /** `isOwner`: the connected account and the address agree up to case. */
  predicate IsOwner(account: string, address: string) {
    Lower(account) == Lower(address)
  }

  /** The owner check is an equivalence: symmetric, reflexive, and true
      exactly when the two addresses spell the same letters up to case. */
  lemma IsOwnerIsCaseInsensitiveEquality(account: string, address: string)
    ensures IsOwner(account, address) <==> IsOwner(address, account)
    ensures IsOwner(account, account)
    ensures IsOwner(account, address) <==> SameUpToCase(account, address)
  {
    LowerEqIffSameUpToCase(account, address);
  }

  /** The action buttons shown on a row: both only to its owner, and
      Analyze only while the row is pending. */
  function Offered(account: string, item: MarketData): (r: set<Action>)
    ensures Analyze in r <==> IsOwner(account, item.owner) && item.status == PENDING
    ensures Flag in r <==> IsOwner(account, item.owner)
  {
    if !IsOwner(account, item.owner) then {}
    else if item.status == PENDING then {Analyze, Flag}
    else {Flag}
  }

  /** The search test: the lower-cased query occurs in the lower-cased
      category or owner. */
  predicate MatchesSearch(item: MarketData, query: string) {
    Contains(Lower(item.category), Lower(query)) || Contains(Lower(item.owner), Lower(query))
  }

  /** The category test: `"all"` or an exact match. */
  predicate MatchesCategory(item: MarketData, category: string) {
    category == "all" || item.category == category
  }

  function Shown(query: string, category: string): MarketData -> bool {
    (item: MarketData) => MatchesSearch(item, query) && MatchesCategory(item, category)
  }

  /** `filteredData`: the rows passing both tests, in snapshot order. */
  function FilteredData(items: seq<MarketData>, query: string, category: string): (r: seq<MarketData>)
    ensures IsSubsequence(r, items)
    ensures forall x :: x in r ==> x in items && MatchesSearch(x, query) && MatchesCategory(x, category)
    ensures forall i :: 0 <= i < |items| && MatchesSearch(items[i], query) && MatchesCategory(items[i], category)
              ==> items[i] in r
    ensures forall x :: multiset(r)[x] ==
              if MatchesSearch(x, query) && MatchesCategory(x, category) then multiset(items)[x] else 0
  {
    FilterCounts(items, Shown(query, category));
    Filter(items, Shown(query, category))
  }

  /** The initial view (empty search, all categories) shows the whole snapshot. */
  lemma FilterDefaultsShowAll(items: seq<MarketData>)
    ensures FilteredData(items, "", "all") == items
  {
    forall i | 0 <= i < |items|
      ensures Shown("", "all")(items[i])
    {
      assert Contains(Lower(items[i].category), Lower(""));
    }
    FilterKeepsAll(items, Shown("", "all"));
  }

  function HasStatus(status: string): MarketData -> bool {
    (item: MarketData) => item.status == status
  }

  /** `marketData.filter(d => d.status === status).length`. */
  function StatusCount(items: seq<MarketData>, status: string): (n: nat)
    ensures n <= |items|
  {
    |Filter(items, HasStatus(status))|
  }

  predicate KnownStatus(item: MarketData) {
    item.status == PENDING || item.status == ANALYZED || item.status == FLAGGED
  }

  /** The three counters never exceed the snapshot size, and add up to it
      exactly when every row carries one of the three statuses. */
  lemma {:induction false} StatusCountsPartition(items: seq<MarketData>)
    ensures StatusCount(items, ANALYZED) + StatusCount(items, PENDING) + StatusCount(items, FLAGGED) <= |items|
    ensures (forall i :: 0 <= i < |items| ==> KnownStatus(items[i])) <==>
            StatusCount(items, ANALYZED) + StatusCount(items, PENDING) + StatusCount(items, FLAGGED) == |items|
    decreases |items|
  {
    if |items| > 0 {
      StatusCountsPartition(items[1..]);
      assert forall i :: 1 <= i < |items| ==> items[1..][i - 1] == items[i];
    }
  }

  function RiskIs(level: int): MarketData -> bool {
    (item: MarketData) => item.riskLevel == level
  }

  function RiskInRange(): MarketData -> bool {
    (item: MarketData) => 1 <= item.riskLevel <= 10
  }

  /** Rows of risk level `level`. */
  function LevelCount(items: seq<MarketData>, level: int): nat {
    |Filter(items, RiskIs(level))|
  }

  /** Rows whose risk level lies in 1..10. */
  function InRangeCount(items: seq<MarketData>): nat {
    |Filter(items, RiskInRange())|
  }

  function Total(counts: seq<nat>): nat {
    if |counts| == 0 then 0 else counts[0] + Total(counts[1..])
  }

  /** Incrementing one bucket increments the total by one. */
  lemma {:induction false} TotalIncrement(counts: seq<nat>, i: nat)
    requires i < |counts|
    ensures Total(counts[i := counts[i] + 1]) == Total(counts) + 1
    decreases |counts|
  {
    if i > 0 {
      TotalIncrement(counts[1..], i - 1);
      assert counts[i := counts[i] + 1][1..] == counts[1..][i - 1 := counts[i] + 1];
    }
  }

  /** `buckets` are the risk bars of `items`: bucket `level - 1` counts the
      rows of risk level `level`, and the bars add up to the rows whose
      level lies in 1..10. */
  predicate Tallies(buckets: seq<nat>, items: seq<MarketData>) {
    && |buckets| == 10
    && (forall level :: 1 <= level <= 10 ==> buckets[level - 1] == LevelCount(items, level))
    && Total(buckets) == InRangeCount(items)
  }

  /** Counting one more row adds one to its own level and nothing to the
      others. */
  lemma LevelCountStep(seen: seq<MarketData>, item: MarketData, level: int)
    ensures LevelCount(seen + [item], level) ==
            LevelCount(seen, level) + (if item.riskLevel == level then 1 else 0)
  {
    FilterAppend(seen, [item], RiskIs(level));
    FilterSingleton(item, RiskIs(level));
  }

  lemma InRangeStep(seen: seq<MarketData>, item: MarketData)
    ensures InRangeCount(seen + [item]) ==
            InRangeCount(seen) + (if 1 <= item.riskLevel <= 10 then 1 else 0)
  {
    FilterAppend(seen, [item], RiskInRange());
    FilterSingleton(item, RiskInRange());
  }

  lemma {:induction false} TotalOfZeros(counts: seq<nat>)
    requires forall i :: 0 <= i < |counts| ==> counts[i] == 0
    ensures Total(counts) == 0
    decreases |counts|
  {
    if |counts| > 0 {
      TotalOfZeros(counts[1..]);
    }
  }

  /** The chart starts with ten empty bars. */
  lemma ZeroTallies(items: seq<MarketData>)
    requires |items| == 0
    ensures Tallies([0, 0, 0, 0, 0, 0, 0, 0, 0, 0], items)
  {
    TotalOfZeros([0, 0, 0, 0, 0, 0, 0, 0, 0, 0]);
  }

  /** The `forEach` body: `riskLevels[item.riskLevel - 1]++` when the
      level lies in 1..10. */
  function Bump(buckets: seq<nat>, item: MarketData): (r: seq<nat>)
    requires |buckets| == 10
    ensures |r| == 10
  {
    if 1 <= item.riskLevel <= 10
    then buckets[item.riskLevel - 1 := buckets[item.riskLevel - 1] + 1]
    else buckets
  }

  /** One `forEach` step of the chart: counting `item` after `seen`. */
  lemma TalliesStep(seen: seq<MarketData>, item: MarketData, before: seq<nat>)
    requires Tallies(before, seen)
    ensures Tallies(Bump(before, item), seen + [item])
  {
    var after := Bump(before, item);
    InRangeStep(seen, item);
    if 1 <= item.riskLevel <= 10 {
      TotalIncrement(before, item.riskLevel - 1);
    }
    forall level | 1 <= level <= 10
      ensures after[level - 1] == LevelCount(seen + [item], level)
    {
      LevelCountStep(seen, item, level);
      assert before[level - 1] == LevelCount(seen, level);
    }
  }

  /** The bars of `renderRiskChart`: bucket `level - 1` counts the rows of
      risk level `level` for levels 1..10; rows outside 1..10 land in no
      bucket, so the bars add up to the rows in range. */
  method RiskChart(items: seq<MarketData>) returns (buckets: seq<nat>)
    ensures |buckets| == 10
    ensures forall level :: 1 <= level <= 10 ==> buckets[level - 1] == LevelCount(items, level)
    ensures Total(buckets) == InRangeCount(items)
  {
    buckets := [0, 0, 0, 0, 0, 0, 0, 0, 0, 0];
    var k := 0;
    ZeroTallies(items[..k]);
    while k < |items|
      invariant 0 <= k <= |items|
      invariant Tallies(buckets, items[..k])
    {
      TalliesStep(items[..k], items[k], buckets);
      assert items[..k + 1] == items[..k] + [items[k]];
      buckets := Bump(buckets, items[k]);
      k := k + 1;
    }
    assert items[..k] == items;
  }
}

=== FILE: writes.dfy ===
/** Chain writes and the result of a mutating operation.

    Each operation is modelled as a pure function of the contract state and
    of the outcomes of its `setData` calls. It returns the writes whose
    call resolved, in the order they were issued, and how it ended. The
    state afterwards is `Apply(store, writes)`: a resolved call is taken as
    applied before the next read. */
module Writes {
  import opened Blobs
  import opened Market

  /** A resolved `setData`: a record blob under `market_<id>`, or the
      index blob under `market_keys`. */
  datatype Write = PutRecord(id: string, item: StoredItem) | PutIndex(keys: seq<string>)

  /** Why an operation stopped after showing its pending banner. */
  datatype Failure =
    | Unencodable   // btoa threw on the form text
    | NoSigner      // getContractWithSigner() gave nothing
    | NotFound      // the record blob is empty ("Data not found")
    | Undecodable   // the record blob does not parse
    | ReadFailed    // a getData call threw
    | Rejected      // the signer declined the transaction
    | WriteFailed   // a setData call threw otherwise

  /** NotConnected: no wallet provider; the operation only raises an alert. */
  datatype Outcome = NotConnected | Done | Failed(why: Failure)

  datatype OpResult = OpResult(outcome: Outcome, writes: seq<Write>)

  /** The wallet side of the session: whether a provider is connected, and
      the account it reported (possibly empty). */
  datatype Session = Session(provider: bool, account: string)

  function Put(st: Store, w: Write): (r: Store)
    ensures w.PutRecord? ==>
              r.index == st.index &&
              ReadRecord(r.records, w.id) == Item(w.item) &&
              forall k :: k != w.id ==> ReadRecord(r.records, k) == ReadRecord(st.records, k)
    ensures w.PutIndex? ==> r.index == Item(w.keys) && r.records == st.records
  {
    match w
    case PutRecord(id, item) => st.(records := st.records[id := Item(item)])
    case PutIndex(keys) => st.(index := Item(keys))
  }

  /** The contract state after the resolved writes, in order. */
  function Apply(st: Store, ws: seq<Write>): (r: Store)
    ensures ws == [] ==> r == st
    ensures (forall i :: 0 <= i < |ws| ==> ws[i].PutRecord?) ==> r.index == st.index
    decreases |ws|
  {
    if |ws| == 0 then st else Apply(Put(st, ws[0]), ws[1..])
  }
}
